=== FILE: README.md ===
# taxi_sec core, modelled in Dafny

taxi_sec is a small ride-hailing web application. Riders request trips, drivers accept and complete them, and either side can cancel. Drivers also keep a registry of their vehicles. This project models the logic behind those screens and proves properties about it:

- **Trip lifecycle** (`TripModels`, `TripViews`):
  - the four statuses and the four guards a trip answers about itself;
  - the accept, complete and cancel handlers;
  - the rider's create, edit and delete screens;
  - the two trip listings.
  The trip table is a `TripTable` object whose rows are kept in creation order. A refused operation leaves the table exactly as it was and reports why. Otherwise:
  - creating appends one row;
  - deleting removes one row;
  - deleting a user removes every trip they ride;
  - accepting, completing, cancelling and editing rewrite one row.
  Every handler keeps the table invariant:
  - a requested trip has no driver;
  - an accepted or completed trip has one;
  - no price is ever set.
  Each row moves only along a lifecycle edge, and an assigned driver is never replaced.
- **Users and driver profiles** (`AccountModels`):
  - the two roles;
  - the user and profile tables with their uniqueness constraints;
  - registration, which creates a profile exactly for drivers;
  - the acting party (`Actor`) every handler receives: a rider, or a driver together with their profile.
- **Registration form** (`AccountForms`):
  - each field's own checks (required, maximum length, role choice);
  - the form-wide `clean`, which asks a driver for licence number, car number and car model;
  - the form's error dictionary and cleaned data, as a `RegistrationForm` object.
- **Vehicle registry** (`VehicleModels`, `VehicleViews`):
  - the vehicle record with its defaults and display string;
  - a `VehicleTable` object whose invariant makes the car number a key of the whole table;
  - list, create, update and delete, gated on "is a driver" or "is a driver and owns the vehicle";
  - the cascade when a profile is deleted.

`Common` holds the shared pieces:
- `Option` and `Result`;
- a filter (`Select`), the query-set filter;
- `NewestFirst`, which filters and then lists the newest rows first;
- `IndexOf`, a primary-key lookup that may miss (a 404).

Timestamps are a logical clock: each new row takes the current value and the clock advances. "Ordered by `-created_at`" is therefore the reverse of creation order.

Notes on behaviour, following the code:

- Editing and deleting a trip share one permission test. The actor must be the rider and the trip must still be requested. Failing either half is the same refusal (`Forbidden`); there is no separate "not editable" outcome.
- Completing a trip changes only its status. No price is ever set, so every trip's price stays empty.
- The list of available trips is shown to any logged-in user, not only to drivers.
- A driver may create a trip and may accept a trip they ride themselves.
- Cancelling keeps the driver on the trip.
- A driver whose licence number is too long gets two errors on that field. The first is the length error. The second is "required for drivers", because the form-wide check reads the licence number from the cleaned data, and the too-long value never reached it.

## Model

| member | source | states |
|---|---|---|
| Common.Select | trips/views.py:28-29 | a row is in the result exactly when it is in the table and passes the filter; the result is no longer than the table |
| Common.SelectPairwise | trips/models.py:51 | a relation that holds between every earlier and later row still holds after filtering, so filtering keeps order |
| Common.NewestFirst | trips/models.py:51 | filtered rows, newest first: exactly the rows passing the filter, in strictly decreasing creation time when the table is in creation order |
| Common.IndexOf | trips/views.py:101 | the lookup by key either finds a row that has the key, or reports none exactly when no row has it |
| AccountModels.IsDriver | accounts/models.py:32-33 | a user is a driver exactly when their stored role is driver |
| AccountModels.IsRider | accounts/models.py:35-36 | a user is a rider exactly when their stored role is rider |
| AccountModels.ExactlyOneRole | accounts/models.py:32-36 | a user is a driver exactly when they are not a rider |
| AccountModels.EmptyDirectoryValid | accounts/models.py:13-52 | the empty user and profile tables satisfy the storage constraints and "a profile exactly for drivers" |
| AccountModels.EmailIdentifiesUser | accounts/models.py:13 | in a valid directory, two users share an e-mail exactly when they are the same user (the e-mail is the login identifier) |
| AccountModels.LicenseIdentifiesProfile | accounts/models.py:48-52 | two profiles share a licence number exactly when they are the same profile |
| AccountModels.ActorOf | accounts/views.py:37-44 | a logged-in user acts as a driver exactly when their role is driver, and then with the id of their own profile |
| AccountModels.DriverProfilesDistinct | accounts/models.py:42-47 | two drivers act with the same profile exactly when they are the same user (one-to-one) |
| AccountModels.ProfileLabel | accounts/models.py:75-76 | a profile's string is the owner's e-mail, then " - ", then the car model |
| AccountModels.Register | accounts/views.py:31-44 | registration is refused as a duplicate e-mail when the e-mail is taken, and otherwise, for a driver whose licence number is taken, as a duplicate licence (the transaction rolls back). Without either clash it adds the user with the next key and the submitted role, adds a profile with the submitted fields and a 5.00 rating exactly for a driver, and leaves other profiles alone |
| AccountModels.RegisterKeepsInvariants | accounts/views.py:37-44 | registration keeps e-mails and licence numbers unique and "a profile exactly for drivers"; the new user acts as a driver exactly when registered as one |
| AccountModels.DeleteUser | accounts/models.py:42-47 | deleting a user deletes their profile with them and touches nobody else, keeping every constraint |
| AccountForms.RoleChoice | accounts/forms.py:12-16 | a submitted role is valid exactly when it is "rider" or "driver", and then names that role |
| AccountForms.FieldErrors | accounts/forms.py:10-22 | a field's own checks fail exactly when a required field (e-mail, role) is empty, the role is not a choice, or a value exceeds its maximum length (phone 20, licence 50, car number 20, car model 100) |
| AccountForms.CleanedFields | accounts/forms.py:10-22 | the cleaned data holds exactly the fields that passed their own checks, with their submitted values |
| AccountForms.MissingDriverFields | accounts/forms.py:36-42 | the form-wide check reports only driver fields |
| AccountForms.NonDriverGetsNoDriverErrors | accounts/forms.py:36 | when the cleaned role is not "driver" (a rider, or a role that failed), no driver field is reported, whatever it holds |
| AccountForms.DriverFieldReportedIffEmpty | accounts/forms.py:37-42 | for a driver, each driver field is reported exactly when it is missing from the cleaned data or empty |
| AccountForms.DescriptionNeverRequired | accounts/forms.py:22 | the description never gets an error, for either role |
| AccountForms.OverlongLicenseReportedTwice | accounts/forms.py:19-38 | a driver's too-long licence number gets the length error and also "required for drivers" |
| AccountForms.ValidFormHasDriverFields | accounts/forms.py:10-42 | a form that validates has an e-mail, a valid role and a phone of at most 20 characters; for a driver, the three driver fields are non-empty and within their lengths |
| AccountForms.Submission | accounts/views.py:32-44 | what a valid form hands to registration is the submitted e-mail (non-empty), phone, chosen role, licence number, car number, car model and description; for a driver, licence, car number and car model are non-empty |
| AccountForms.RegistrationForm.CleanFields | accounts/forms.py:10-22 | after the field checks, the cleaned data is the passing fields, and each field's errors are exactly its own check's errors |
| AccountForms.RegistrationForm.AddError | accounts/forms.py:38 | adding an error appends it to the field's list and drops the field from the cleaned data |
| AccountForms.RegistrationForm.RequireForDriver | accounts/forms.py:37-38 | one driver field that is missing or empty gets "required for drivers" and leaves the cleaned data; a filled one changes nothing |
| AccountForms.RegistrationForm.Clean | accounts/forms.py:31-44 | each driver field a driver left empty gets exactly one "required for drivers" after its earlier errors and is dropped from the cleaned data; the returned cleaned data keeps every remaining value unchanged |
| AccountForms.RegistrationForm.IsValid | accounts/forms.py:31-44 | full validation reports errors on exactly the fields with a field error or a missing driver field, and the form is valid exactly when there are none |
| AccountForms.RequiredForDriversCompose | accounts/forms.py:37-42 | adding the "required for drivers" errors for two disjoint sets of fields in turn adds them for both at once |
| TripModels.CanBeEdited | trips/models.py:56-58 | a trip may be edited exactly while it is requested |
| TripModels.CanBeAccepted | trips/models.py:60-62 | a trip may be accepted exactly while it is requested |
| TripModels.CanBeCompleted | trips/models.py:64-66 | a trip may be completed exactly while it is accepted |
| TripModels.CanBeCancelled | trips/models.py:68-70 | a trip may be cancelled exactly while it is requested or accepted |
| TripModels.StatusNamesDistinct | trips/models.py:8-13 | the four stored status names are distinct |
| TripModels.GuardsAgree | trips/models.py:56-70 | editing and accepting are allowed together; never both accepting and completing; cancelling exactly when accepting or completing is allowed, i.e. exactly when the status is not terminal |
| TripModels.TerminalClosed | trips/models.py:56-70 | a completed or cancelled trip allows no edit, accept, complete or cancel |
| TripModels.NewTrip | trips/models.py:21-44 | a new trip is requested, with no driver and no price, and may be edited, accepted and cancelled but not completed |
| TripModels.EdgesAreGuarded | trips/views.py:103-152 | each lifecycle edge leaves a status whose guard allows it, never leaves a terminal status, and never returns to requested |
| TripModels.CompletedOnlyViaAccepted | trips/models.py:64-66 | in any run of statuses from creation, a completed status is preceded by an accepted one |
| TripModels.TerminalIsFinal | trips/models.py:56-70 | in any run of statuses, a completed or cancelled status never changes again |
| TripViews.FieldsValid | trips/models.py:29-37 | the trip form validates exactly when origin and destination are non-empty and at most 255 characters; the comment may be blank |
| TripViews.IsAssignedDriver | trips/views.py:120 | the actor is a driver and their profile is the trip's driver |
| TripViews.MayEdit | trips/views.py:59-61 | the update and delete test: the actor is the trip's rider and the trip may still be edited |
| TripViews.MayCancel | trips/views.py:141-144 | the cancel permission: the actor is the rider, or a driver whose profile is the trip's driver |
| TripViews.ListedFor | trips/views.py:25-29 | a driver's own list holds the trips whose driver is their profile; anyone else's the trips they ride |
| TripViews.Find | trips/views.py:101 | the trip lookup finds the row with that key, or reports none exactly when there is none |
| TripViews.TripList | trips/views.py:25-29 | a driver sees exactly the trips they drive and anyone else exactly the trips they ride, newest first; a driver's list holds no requested trip |
| TripViews.AvailableTrips | trips/views.py:90-91 | exactly the requested trips, newest first, each acceptable and without a driver |
| TripViews.DriverKept | trips/views.py:107-109 | along successive versions of a trip, an assigned driver stays assigned |
| TripViews.TripHistory | trips/views.py:95-156 | successive versions of one trip from its creation form a lifecycle run: completed only after accepted, terminal statuses final, the driver never replaced |
| TripViews.ReplaceKeeps | trips/views.py:107-109 | rewriting one trip as a handler may (same key, rider and creation time, one edge at most, driver kept) keeps the table invariant |
| TripViews.SelectKeeps | trips/models.py:15-20 | removing trips by a filter keeps the table invariant and leaves the remaining trips untouched |
| TripViews.TripTable.Create | trips/views.py:46-49 | an invalid form changes nothing; otherwise the new trip is appended with the caller as rider, the next key and the model's defaults |
| TripViews.TripTable.Accept | trips/views.py:95-112 | refused to non-drivers before the lookup, then a 404, then refused unless requested; on success exactly the driver becomes the actor's profile and the status accepted; a refusal changes nothing |
| TripViews.TripTable.Complete | trips/views.py:116-132 | a 404, then refused unless the actor is the assigned driver, then unless accepted; on success only the status becomes completed |
| TripViews.TripTable.Cancel | trips/views.py:136-156 | a 404, then refused unless the actor is the rider or the assigned driver, then unless requested or accepted; on success only the status becomes cancelled and the driver stays |
| TripViews.TripTable.Update | trips/views.py:59-65 | a 404, then refused unless the actor is the rider of a requested trip, then an invalid form; on success only origin, destination and comment change |
| TripViews.TripTable.Delete | trips/views.py:74-80 | the same test as editing; on success exactly that row is removed and no row with that key remains |
| TripViews.TripTable.DeleteRiddenBy | trips/models.py:15-20 | deleting a user deletes every trip they ride and nothing else, keeping the invariant |
| VehicleModels.FieldsValid | vehicles/models.py:13-29 | the vehicle form validates exactly when the car number (at most 20) and car model (at most 100) are non-empty and the colour is at most 50 characters |
| VehicleModels.InitialFields | vehicles/models.py:13-36 | a new vehicle form starts with a blank car number and car model (they have no default), 4 seats, no year, a blank colour and active |
| VehicleModels.VehicleLabel | vehicles/models.py:45-46 | a vehicle's string is the car model, then the car number in parentheses |
| VehicleModels.WithFields | vehicles/forms.py:11-14 | a submitted form sets exactly the form's fields and keeps the key, owner and creation time |
| VehicleViews.MayCreate | vehicles/views.py:43-44 | any driver may add a vehicle, nobody else |
| VehicleViews.MayManage | vehicles/views.py:59-64 | the update and delete test: the actor is a driver and their profile owns the vehicle |
| VehicleViews.CarNumberTaken | vehicles/models.py:13-17 | some vehicle other than the one being edited already carries the car number |
| VehicleViews.FindVehicle | vehicles/views.py:60 | the vehicle lookup finds the row with that key, or reports none exactly when there is none |
| VehicleViews.VehicleList | vehicles/views.py:23-26 | a driver sees exactly the vehicles their profile owns, newest first; anyone else sees none |
| VehicleViews.CarNumbersUnique | vehicles/models.py:13-17 | no two vehicles in the table, whoever owns them, share a car number |
| VehicleViews.CarNumberIdentifies | vehicles/models.py:13-17 | two rows share a car number exactly when they are the same row |
| VehicleViews.SelectKeeps | vehicles/models.py:7-12 | removing vehicles by a filter keeps the table invariant |
| VehicleViews.VehicleTable.Create | vehicles/views.py:43-49 | refused to non-drivers, then an invalid form, then a car number any vehicle already has; on success the vehicle is appended with the actor's profile as owner; a refusal changes nothing |
| VehicleViews.VehicleTable.Update | vehicles/views.py:59-68 | a 404, then refused unless the actor is a driver owning the vehicle, then an invalid form or a car number another vehicle has; on success only the form's fields change |
| VehicleViews.VehicleTable.Delete | vehicles/views.py:77-86 | the same ownership test as update; on success exactly that row is removed; a refusal changes nothing |
| VehicleViews.VehicleTable.DeleteOwnedBy | vehicles/models.py:7-12 | deleting a profile deletes exactly the vehicles it owns, keeping the invariant |

## Left out

- URL routing, templates, redirects and flash messages: presentation with no logic. A refusal is an error value; which page it redirects to is not modelled.
- Admin classes: back-office configuration. The admin can set a trip's status directly, outside every guard, so the trip invariant covers the handlers only.
- Login, logout, the profile pages and the user and profile update forms: session plumbing. The model keeps only what registration establishes, that a driver always has a profile.
- The sample-data command: scripted inserts that bypass the handlers.
- Concurrency: accepting a trip reads and then saves without locking. The model runs handlers one at a time.
- Photos of drivers and vehicles: file uploads.
- Timestamps: creation times are a logical clock, `updated_at` is not modelled, and no real time is used.
- Price and rating: treated as opaque numbers (rating in hundredths, so 5.00 is 500), since no arithmetic is done on them.
- The trip's driver link is `SET_NULL` on profile deletion: deleting a profile would leave accepted or completed trips without a driver, against the invariant the handlers keep. Profile deletion is modelled for users and vehicles only.
- The trip's display string (`Trip #id: origin -> destination`): it needs integer formatting and nothing depends on it.
- The trip detail and vehicle detail pages: read-only, with no check.
- AccountForms.FieldErrors: the e-mail format is not checked, only that the e-mail is present. Submitted values are assumed already stripped of surrounding white space and free of NUL characters: a value of white space only, which the form's fields strip to empty and refuse as required, and a value containing a NUL character, which every field refuses, are not refused here.
- TripViews.FieldsValid: origin and destination are assumed already stripped of surrounding white space and free of NUL characters. The form's fields strip a white-space-only origin or destination to empty and refuse it as required, and refuse any value containing a NUL character; here such values pass, so `TripTable.Create` and `TripTable.Update` accept them.
- AccountModels.Register: the username and password fields inherited from the framework's user creation form, and their checks, are not modelled. The duplicate-e-mail check stands for the form's uniqueness validation.
- VehicleModels.FieldsValid: seats and year are unbounded natural numbers. The database's integer range, which the server-side form enforces as an upper bound on both, is not modelled, so a seat count or year beyond that range is accepted here. The browser's minimum and maximum hints are not enforced by the server and are not modelled. Car number, car model and colour are assumed already stripped of surrounding white space and free of NUL characters, so a white-space-only car number or car model (refused as required by the form) and a value containing a NUL character (refused by every text field) pass here. A seat count is assumed always submitted: the form refuses a blank seat count as required, which a natural number cannot express. `VehicleTable.Create` and `VehicleTable.Update` inherit these gaps.
- Pagination: the trip, available-trip and vehicle lists are shown ten to a page; the listing functions return the whole list, and page slicing is not modelled.
- AccountForms.RegistrationForm.IsValid: it states which fields have errors and what the cleaned data is. The order of messages within a field is stated by `CleanFields` and `Clean`.

=== FILE: accounts_forms.dfy ===
/**
 * The registration form: e-mail, phone, role, and the three driver fields
 * (licence number, car number, car model) plus a free description.
 *
 * Validation runs in two stages, as in the form framework: each field's own
 * checks (required, maximum length, valid choice) produce the cleaned data
 * and the first errors; then the form-wide `Clean` adds one "required for
 * drivers" error for each driver field that is missing from the cleaned data
 * or empty, when the cleaned role is "driver". Adding an error to a field also
 * drops that field from the cleaned data. Values reach the model already
 * stripped of surrounding white space and free of NUL characters.
 */
module AccountForms {
  import opened Common
  import opened AccountModels

  datatype Field = Email | Phone | RoleField | LicenseNumber | CarNumber | CarModel | Description

  const AllFields: set<Field> := {Email, Phone, RoleField, LicenseNumber, CarNumber, CarModel, Description}

  /** The fields a driver must fill in. */
  const DriverFields: set<Field> := {LicenseNumber, CarNumber, CarModel}

  const PhoneMaxLength: nat := 20
  const LicenseMaxLength: nat := 50
  const CarNumberMaxLength: nat := 20
  const CarModelMaxLength: nat := 100

  /** The role radio buttons start on the default role. */
  const InitialRole: string := RoleName(DefaultRole)

  datatype FieldError =
    | Required            // a required field left empty
    | TooLong(limit: nat) // longer than the field's maximum length
    | InvalidChoice       // a role that is not one of the choices
    | RequiredForDrivers  // a driver field left empty by a driver

  /** Only the e-mail and the role are required by the fields themselves. */
  predicate IsRequired(f: Field) { f == Email || f == RoleField }

  function MaxLength(f: Field): Option<nat>
  {
    match f
    case Phone => Some(PhoneMaxLength)
    case LicenseNumber => Some(LicenseMaxLength)
    case CarNumber => Some(CarNumberMaxLength)
    case CarModel => Some(CarModelMaxLength)
    case _ => None
  }

  /** The role a submitted choice stands for, if it is one of the choices. */
  function RoleChoice(s: string): (r: Option<Role>)
    ensures r.Some? <==> s == "rider" || s == "driver"
    ensures r.Some? ==> RoleName(r.value) == s
  {
    if s == RoleName(RiderRole) then Some(RiderRole)
    else if s == RoleName(DriverRole) then Some(DriverRole)
    else None
  }

  /** The errors of a field's own checks: an empty value is only checked for being required. */
  function FieldErrors(f: Field, v: string): (es: seq<FieldError>)
    ensures |es| <= 1
    ensures es == [] <==>
      if v == "" then !IsRequired(f)
      else (f != RoleField || RoleChoice(v).Some?) && (MaxLength(f).Some? ==> |v| <= MaxLength(f).value)
  {
    if v == "" then (if IsRequired(f) then [Required] else [])
    else if f == RoleField && RoleChoice(v).None? then [InvalidChoice]
    else match MaxLength(f)
      case Some(n) => if |v| > n then [TooLong(n)] else []
      case None => []
  }

  /** A submitted value; a field left out of the submission reads as empty. */
  function Value(data: map<Field, string>, f: Field): string
  {
    if f in data then data[f] else ""
  }

  /** The cleaned data after the field checks: every field that passed, with its value. */
  function CleanedFields(data: map<Field, string>): (c: map<Field, string>)
    ensures forall f :: f in c <==> f in AllFields && FieldErrors(f, Value(data, f)) == []
    ensures forall f :: f in c ==> c[f] == Value(data, f)
  {
    map f | f in AllFields && FieldErrors(f, Value(data, f)) == [] :: Value(data, f)
  }

  /** The driver fields `Clean` reports: none unless the cleaned role is "driver". */
  function MissingDriverFields(c: map<Field, string>): (m: set<Field>)
    ensures m <= DriverFields
  {
    if RoleField in c && c[RoleField] == "driver" then
      set f | f in DriverFields && (f !in c || c[f] == "")
    else {}
  }

  /** Every field the whole validation reports an error on. */
  function ErrorFields(data: map<Field, string>): set<Field>
  {
    (set f | f in AllFields && FieldErrors(f, Value(data, f)) != [])
      + MissingDriverFields(CleanedFields(data))
  }

  /** The errors recorded for `f` so far. */
  function Messages(errors: map<Field, seq<FieldError>>, f: Field): seq<FieldError>
  {
    if f in errors then errors[f] else []
  }

  /** The errors after one "required for drivers" error is added to each field of `missing`. */
  function WithRequiredForDrivers(errors: map<Field, seq<FieldError>>, missing: set<Field>): map<Field, seq<FieldError>>
  {
    map f | f in errors.Keys + missing :: Messages(errors, f) + (if f in missing then [RequiredForDrivers] else [])
  }

  /** Those errors come after the ones already recorded, and only the fields of `missing` gain one. */
  lemma RequiredForDriversAppends(errors: map<Field, seq<FieldError>>, missing: set<Field>, f: Field)
    ensures Messages(WithRequiredForDrivers(errors, missing), f) ==
      Messages(errors, f) + (if f in missing then [RequiredForDrivers] else [])
    ensures WithRequiredForDrivers(errors, missing).Keys == errors.Keys + missing
  {
  }

  lemma RequiredForDriversNone(errors: map<Field, seq<FieldError>>)
    ensures WithRequiredForDrivers(errors, {}) == errors
  {
    var w := WithRequiredForDrivers(errors, {});
    assert w.Keys == errors.Keys;
    forall f | f in w ensures w[f] == errors[f] {
      assert Messages(errors, f) + [] == errors[f];
    }
  }

  /** Adding the errors for two disjoint sets of fields in turn adds them for both at once. */
  lemma RequiredForDriversCompose(errors: map<Field, seq<FieldError>>, s: set<Field>, t: set<Field>)
    requires s !! t
    ensures WithRequiredForDrivers(WithRequiredForDrivers(errors, s), t) == WithRequiredForDrivers(errors, s + t)
  {
    var w := WithRequiredForDrivers(errors, s);
    var u := WithRequiredForDrivers(w, t);
    var v := WithRequiredForDrivers(errors, s + t);
    assert u.Keys == v.Keys;
    forall g | g in u ensures u[g] == v[g] {
      assert Messages(w, g) == Messages(errors, g) + (if g in s then [RequiredForDrivers] else []);
      if g in s {
        assert g !in t;
        assert u[g] == Messages(w, g) + [];
      }
    }
  }

  /** A driver field `Clean` reports: `{f}` when `f` is missing from the cleaned data or empty. */
  function MissingIfEmpty(c: map<Field, string>, f: Field): (m: set<Field>)
    ensures m <= {f}
  {
    if f !in c || c[f] == "" then {f} else {}
  }

  /** For a driver, the reported fields are those of the three checks together. */
  lemma MissingDriverFieldsSplit(c: map<Field, string>)
    requires RoleField in c && c[RoleField] == "driver"
    ensures MissingDriverFields(c) ==
      MissingIfEmpty(c, LicenseNumber) + MissingIfEmpty(c, CarNumber) + MissingIfEmpty(c, CarModel)
  {
    var m := MissingDriverFields(c);
    var u := MissingIfEmpty(c, LicenseNumber) + MissingIfEmpty(c, CarNumber) + MissingIfEmpty(c, CarModel);
    forall f ensures f in m <==> f in u {
      assert f in m <==> f in DriverFields && (f !in c || c[f] == "");
    }
  }

  /** Whatever the driver fields hold, a rider (or a role that did not validate) gets no driver errors. */
  lemma NonDriverGetsNoDriverErrors(c: map<Field, string>)
    requires RoleField !in c || c[RoleField] != "driver"
    ensures MissingDriverFields(c) == {}
  {
  }

  /** For a driver, each driver field is reported exactly when it is missing or empty. */
  lemma DriverFieldReportedIffEmpty(c: map<Field, string>, f: Field)
    requires RoleField in c && c[RoleField] == "driver" && f in DriverFields
    ensures f in MissingDriverFields(c) <==> f !in c || c[f] == ""
  {
  }

  /** The description is never required, whatever the role. */
  lemma DescriptionNeverRequired(data: map<Field, string>)
    ensures Description !in ErrorFields(data)
  {
    assert FieldErrors(Description, Value(data, Description)) == [];
  }

  /**
   * A driver whose licence number is too long gets two errors on that field:
   * the length error, and — because the over-long value never reached the
   * cleaned data — "required for drivers" as well.
   */
  lemma OverlongLicenseReportedTwice(data: map<Field, string>)
    requires Value(data, RoleField) == "driver" && |Value(data, LicenseNumber)| > LicenseMaxLength
    ensures FieldErrors(LicenseNumber, Value(data, LicenseNumber)) == [TooLong(LicenseMaxLength)]
    ensures LicenseNumber in MissingDriverFields(CleanedFields(data))
  {
    var c := CleanedFields(data);
    assert FieldErrors(RoleField, "driver") == [];
    assert RoleField in c && c[RoleField] == "driver";
    assert LicenseNumber !in c;
  }

  /**
   * A form that validates has an e-mail and a valid role, and for a driver
   * all three driver fields filled in and within their lengths.
   */
  lemma ValidFormHasDriverFields(data: map<Field, string>)
    requires ErrorFields(data) == {}
    ensures Value(data, Email) != "" && RoleChoice(Value(data, RoleField)).Some?
    ensures |Value(data, Phone)| <= PhoneMaxLength
    ensures Value(data, RoleField) == "driver" ==>
      && 0 < |Value(data, LicenseNumber)| <= LicenseMaxLength
      && 0 < |Value(data, CarNumber)| <= CarNumberMaxLength
      && 0 < |Value(data, CarModel)| <= CarModelMaxLength
  {
    forall f | f in AllFields ensures FieldErrors(f, Value(data, f)) == [] {
      assert f !in ErrorFields(data);
    }
    assert FieldErrors(Email, Value(data, Email)) == [];
    assert FieldErrors(RoleField, Value(data, RoleField)) == [];
    assert FieldErrors(Phone, Value(data, Phone)) == [];
    if Value(data, RoleField) == "driver" {
      var c := CleanedFields(data);
      assert RoleField in c;
      forall f | f in DriverFields ensures 0 < |Value(data, f)| && |Value(data, f)| <= MaxLength(f).value {
        assert FieldErrors(f, Value(data, f)) == [];
        assert f in c;
        assert f !in MissingDriverFields(c);
      }
    }
  }

  /** What a form that validates hands to registration. */
  function Submission(data: map<Field, string>): (reg: Registration)
    requires ErrorFields(data) == {}
    ensures RoleName(reg.role) == Value(data, RoleField)
    ensures reg.email == Value(data, Email) && reg.email != ""
    ensures reg.phone == Value(data, Phone) && reg.description == Value(data, Description)
    ensures reg.licenseNumber == Value(data, LicenseNumber) && reg.carNumber == Value(data, CarNumber)
      && reg.carModel == Value(data, CarModel)
    ensures reg.role == DriverRole ==> reg.licenseNumber != "" && reg.carNumber != "" && reg.carModel != ""
  {
    ValidFormHasDriverFields(data);
    Registration(
      Value(data, Email), Value(data, Phone), RoleChoice(Value(data, RoleField)).value,
      Value(data, LicenseNumber), Value(data, CarNumber), Value(data, CarModel),
      Value(data, Description))
  }

  class RegistrationForm {
    /** The submitted values. */
    const data: map<Field, string>
    /** The values that passed validation so far. */
    var cleanedData: map<Field, string>
    /** The errors so far, per field, in the order they were added. */
    var errors: map<Field, seq<FieldError>>

    constructor (data: map<Field, string>)
      ensures this.data == data && cleanedData == map[] && errors == map[]
    {
      this.data := data;
      cleanedData := map[];
      errors := map[];
    }

    /** Each field's own checks. */
    method CleanFields()
      modifies this
      ensures cleanedData == CleanedFields(data)
      ensures forall f :: Messages(errors, f) == (if f in AllFields then FieldErrors(f, Value(data, f)) else [])
      ensures errors.Keys == set f | f in AllFields && FieldErrors(f, Value(data, f)) != []
    {
      cleanedData := CleanedFields(data);
      errors := map f | f in AllFields && FieldErrors(f, Value(data, f)) != [] :: FieldErrors(f, Value(data, f));
    }

    /** Records an error on `f` and drops `f` from the cleaned data. */
    method AddError(f: Field, e: FieldError)
      modifies this
      ensures errors == old(errors)[f := Messages(old(errors), f) + [e]]
      ensures cleanedData == old(cleanedData) - {f}
    {
      errors := errors[f := Messages(errors, f) + [e]];
      cleanedData := cleanedData - {f};
    }

    /** `Clean`'s check of one driver field: an error unless it holds a non-empty value. */
    method RequireForDriver(f: Field)
      modifies this
      ensures errors == WithRequiredForDrivers(old(errors), MissingIfEmpty(old(cleanedData), f))
      ensures cleanedData == old(cleanedData) - MissingIfEmpty(old(cleanedData), f)
    {
      ghost var e := errors;
      RequiredForDriversNone(e);
      if f !in cleanedData || cleanedData[f] == "" {
        AddError(f, RequiredForDrivers);
        RequiredForDriversAppends(e, {f}, f);
      }
    }

    /**
     * The form-wide check: when the cleaned role is "driver", one error on
     * each driver field that is missing or empty. Returns the cleaned data,
     * whose remaining values are unchanged.
     */
    method Clean() returns (cleaned: map<Field, string>)
      modifies this
      ensures cleaned == cleanedData
      ensures cleanedData == old(cleanedData) - MissingDriverFields(old(cleanedData))
      ensures errors == WithRequiredForDrivers(old(errors), MissingDriverFields(old(cleanedData)))
    {
      ghost var c := cleanedData;
      ghost var e := errors;
      RequiredForDriversNone(e);
      if RoleField in cleanedData && cleanedData[RoleField] == "driver" {
        ghost var s1, s2, s3 := MissingIfEmpty(c, LicenseNumber), MissingIfEmpty(c, CarNumber), MissingIfEmpty(c, CarModel);
        RequireForDriver(LicenseNumber);
        assert MissingIfEmpty(c - s1, CarNumber) == s2;
        RequireForDriver(CarNumber);
        RequiredForDriversCompose(e, s1, s2);
        assert MissingIfEmpty(c - s1 - s2, CarModel) == s3;
        RequireForDriver(CarModel);
        RequiredForDriversCompose(e, s1 + s2, s3);
        MissingDriverFieldsSplit(c);
      }
      cleaned := cleanedData;
    }

    /**
     * Full validation from scratch: the field checks, then `Clean`. The form
     * is valid when no field has an error.
     */
    method IsValid() returns (ok: bool)
      modifies this
      ensures errors.Keys == ErrorFields(data)
      ensures cleanedData == CleanedFields(data) - MissingDriverFields(CleanedFields(data))
      ensures ok <==> ErrorFields(data) == {}
    {
      CleanFields();
      var _ := Clean();
      ok := errors == map[];
    }
  }
}

=== FILE: accounts_models.dfy ===
/**
 * Users, their role, and the driver profile a driver carries.
 *
 * The user and driver-profile tables are one value, a `Directory`. The
 * database constraints of the two tables (unique e-mail, one profile per
 * user, unique licence number, primary keys drawn from a sequence) are its
 * `Valid` predicate; registration is the one operation that adds users, and it
 * creates a profile exactly when the role is driver, which `RolesLinked`
 * records. From that follows the acting party every other module works with:
 * an `Actor` is a rider, or a driver together with the id of their profile.
 */
module AccountModels {
  import opened Common

  type UserId = nat
  type ProfileId = nat

  /** The two role choices; a new user is a rider unless stated otherwise. */
  datatype Role = RiderRole | DriverRole

  const DefaultRole: Role := RiderRole

  /** The role as stored and as submitted in a form. */
  function RoleName(r: Role): string
  {
    match r
    case RiderRole => "rider"
    case DriverRole => "driver"
  }

  /** A user; the e-mail address is the login identifier. */
  datatype User = User(id: UserId, email: string, phone: string, role: Role)

  predicate IsDriver(u: User) { u.role == DriverRole }

  predicate IsRider(u: User) { u.role == RiderRole }

  lemma ExactlyOneRole(u: User)
    ensures IsDriver(u) <==> !IsRider(u)
  {
  }

  /** A rating in hundredths (a decimal with two places): 500 is 5.00. */
  type Rating = int

  const DefaultRating: Rating := 500

  datatype DriverProfile = DriverProfile(
    id: ProfileId,
    user: UserId,
    licenseNumber: string,
    description: string,
    carNumber: string,
    carModel: string,
    rating: Rating)

  /**
   * Who performs an operation. A driver always comes with their profile:
   * registration creates one exactly for drivers (see `Register`).
   */
  datatype Actor = Rider(user: UserId) | Driver(user: UserId, profile: ProfileId)

  /**
   * The user table keyed by id and the driver-profile table keyed by the
   * owning user (so a user has at most one profile), with the next keys the
   * two primary-key sequences will hand out.
   */
  datatype Directory = Directory(
    users: map<UserId, User>,
    profiles: map<UserId, DriverProfile>,
    nextUser: UserId,
    nextProfile: ProfileId)

  const EmptyDirectory: Directory := Directory(map[], map[], 0, 0)

  /** The storage constraints of the two tables. */
  ghost predicate Valid(d: Directory)
  {
    && (forall k :: k in d.users ==> d.users[k].id == k && k < d.nextUser)
    && (forall a, b :: a in d.users && b in d.users && a != b ==> d.users[a].email != d.users[b].email)
    && (forall k :: k in d.profiles ==> k in d.users && d.profiles[k].user == k && d.profiles[k].id < d.nextProfile)
    && (forall a, b :: a in d.profiles && b in d.profiles && a != b ==>
          d.profiles[a].id != d.profiles[b].id && d.profiles[a].licenseNumber != d.profiles[b].licenseNumber)
  }

  /** A user has a driver profile exactly when their role is driver. */
  ghost predicate RolesLinked(d: Directory)
  {
    forall k :: k in d.users ==> (IsDriver(d.users[k]) <==> k in d.profiles)
  }

  lemma EmptyDirectoryValid()
    ensures Valid(EmptyDirectory) && RolesLinked(EmptyDirectory)
  {
  }

  predicate EmailTaken(d: Directory, email: string)
  {
    exists k :: k in d.users && d.users[k].email == email
  }

  predicate LicenseTaken(d: Directory, license: string)
  {
    exists k :: k in d.profiles && d.profiles[k].licenseNumber == license
  }

  /** The e-mail address is the login identifier: in a valid directory it names exactly one user. */
  lemma EmailIdentifiesUser(d: Directory, a: UserId, b: UserId)
    requires Valid(d) && a in d.users && b in d.users
    ensures d.users[a].email == d.users[b].email <==> a == b
  {
  }

  /** A licence number names exactly one driver profile. */
  lemma LicenseIdentifiesProfile(d: Directory, a: UserId, b: UserId)
    requires Valid(d) && a in d.profiles && b in d.profiles
    ensures d.profiles[a].licenseNumber == d.profiles[b].licenseNumber <==> a == b
  {
  }

  /** The acting party for a logged-in user. */
  function ActorOf(d: Directory, uid: UserId): (a: Actor)
    requires Valid(d) && RolesLinked(d) && uid in d.users
    ensures a.user == uid
    ensures a.Driver? <==> IsDriver(d.users[uid])
    ensures a.Driver? ==> uid in d.profiles && d.profiles[uid].id == a.profile
  {
    if IsDriver(d.users[uid]) then Driver(uid, d.profiles[uid].id) else Rider(uid)
  }

  /** Two different drivers never share a profile, so a profile id names one driver. */
  lemma DriverProfilesDistinct(d: Directory, u1: UserId, u2: UserId)
    requires Valid(d) && RolesLinked(d) && u1 in d.users && u2 in d.users
    requires ActorOf(d, u1).Driver? && ActorOf(d, u2).Driver?
    ensures ActorOf(d, u1).profile == ActorOf(d, u2).profile <==> u1 == u2
  {
  }

  /** A profile's display string: the owner's e-mail, " - ", the car model. */
  function ProfileLabel(d: Directory, p: DriverProfile): (s: string)
    requires p.user in d.users
    ensures |s| == |d.users[p.user].email| + 3 + |p.carModel|
    ensures s[..|d.users[p.user].email|] == d.users[p.user].email
    ensures s[|d.users[p.user].email|..|d.users[p.user].email| + 3] == " - "
    ensures s[|s| - |p.carModel|..] == p.carModel
  {
    d.users[p.user].email + " - " + p.carModel
  }

  /** What a valid registration form hands to the registration view. */
  datatype Registration = Registration(
    email: string,
    phone: string,
    role: Role,
    licenseNumber: string,
    carNumber: string,
    carModel: string,
    description: string)

  datatype AccountError = DuplicateEmail | DuplicateLicense

  /**
   * Registration, in one transaction: insert the user with the submitted
   * role; for a driver, also insert a profile with the submitted driver
   * fields and the default rating. A duplicate e-mail is refused by the
   * form's uniqueness check; a duplicate licence number makes the profile
   * insert fail and the whole transaction roll back.
   */
  function Register(d: Directory, reg: Registration): (r: Result<Directory, AccountError>)
    requires Valid(d)
    ensures EmailTaken(d, reg.email) ==> r == Err(DuplicateEmail)
    ensures !EmailTaken(d, reg.email) && reg.role == DriverRole && LicenseTaken(d, reg.licenseNumber) ==> r == Err(DuplicateLicense)
    ensures r.Ok? <==> !EmailTaken(d, reg.email) && !(reg.role == DriverRole && LicenseTaken(d, reg.licenseNumber))
    ensures r.Ok? ==>
      && r.value.nextUser == d.nextUser + 1
      && r.value.users == d.users[d.nextUser := User(d.nextUser, reg.email, reg.phone, reg.role)]
      && (d.nextUser in r.value.profiles <==> reg.role == DriverRole)
      && (forall k :: k != d.nextUser ==> (k in r.value.profiles <==> k in d.profiles))
      && (forall k :: k in d.profiles ==> r.value.profiles[k] == d.profiles[k])
    ensures r.Ok? && reg.role == DriverRole ==>
      var p := r.value.profiles[d.nextUser];
      && p.user == d.nextUser && p.rating == DefaultRating
      && p.licenseNumber == reg.licenseNumber && p.carNumber == reg.carNumber
      && p.carModel == reg.carModel && p.description == reg.description
  {
    if EmailTaken(d, reg.email) then Err(DuplicateEmail)
    else
      var uid := d.nextUser;
      var users := d.users[uid := User(uid, reg.email, reg.phone, reg.role)];
      match reg.role
      case RiderRole =>
        Ok(Directory(users, d.profiles, uid + 1, d.nextProfile))
      case DriverRole =>
        if LicenseTaken(d, reg.licenseNumber) then Err(DuplicateLicense)
        else
          var p := DriverProfile(d.nextProfile, uid, reg.licenseNumber, reg.description,
                                 reg.carNumber, reg.carModel, DefaultRating);
          Ok(Directory(users, d.profiles[uid := p], uid + 1, d.nextProfile + 1))
  }

  /**
   * Registration keeps the storage constraints, and keeps "a profile exactly
   * for drivers"; the new user logs in as the party their role says.
   */
  lemma RegisterKeepsInvariants(d: Directory, reg: Registration)
    requires Valid(d) && Register(d, reg).Ok?
    ensures Valid(Register(d, reg).value)
    ensures RolesLinked(d) ==> RolesLinked(Register(d, reg).value)
    ensures RolesLinked(d) ==> (ActorOf(Register(d, reg).value, d.nextUser).Driver? <==> reg.role == DriverRole)
  {
    var d' := Register(d, reg).value;
    var uid := d.nextUser;
    assert !EmailTaken(d, reg.email);
    forall a, b | a in d'.users && b in d'.users && a != b
      ensures d'.users[a].email != d'.users[b].email
    {
      if a == uid {
        assert b in d.users && d.users[b].email != reg.email;
      } else if b == uid {
        assert a in d.users && d.users[a].email != reg.email;
      }
    }
    if reg.role == DriverRole {
      assert !LicenseTaken(d, reg.licenseNumber);
      forall a, b | a in d'.profiles && b in d'.profiles && a != b
        ensures d'.profiles[a].id != d'.profiles[b].id
        ensures d'.profiles[a].licenseNumber != d'.profiles[b].licenseNumber
      {
        if a == uid {
          assert b in d.profiles && d.profiles[b].licenseNumber != reg.licenseNumber;
        } else if b == uid {
          assert a in d.profiles && d.profiles[a].licenseNumber != reg.licenseNumber;
        }
      }
    }
  }

  /**
   * Deleting a user deletes their driver profile with them (the profile's
   * link to its user cascades); nobody else is touched.
   */
  function DeleteUser(d: Directory, uid: UserId): (r: Directory)
    requires Valid(d)
    ensures Valid(r) && (RolesLinked(d) ==> RolesLinked(r))
    ensures uid !in r.users && uid !in r.profiles
    ensures forall k :: k != uid ==> (k in r.users <==> k in d.users) && (k in r.profiles <==> k in d.profiles)
    ensures forall k :: k in r.users ==> r.users[k] == d.users[k]
    ensures forall k :: k in r.profiles ==> r.profiles[k] == d.profiles[k]
  {
    Directory(d.users - {uid}, d.profiles - {uid}, d.nextUser, d.nextProfile)
  }
}

=== FILE: common.dfy ===
/**
 * Small building blocks shared by the model: optional values, results with a
 * rejection reason, and the three things the ORM does to an ordered table of
 * rows that the model needs — filtering (`Select`), reversing (for the
 * newest-first orderings) and looking a row up by its primary key (`IndexOf`).
 */
module Common {

  datatype Option<+T> = None | Some(value: T)

  /** An operation either succeeds with a value or is rejected with a reason. */
  datatype Result<+T, +E> = Ok(value: T) | Err(error: E)

  /** Every pair of rows, taken in table order, is related by `rel`. */
  ghost predicate Pairwise<T>(s: seq<T>, rel: (T, T) -> bool)
  {
    forall i, j :: 0 <= i < j < |s| ==> rel(s[i], s[j])
  }

  /** The rows satisfying `keep`, in their original order (a `filter(...)` query). */
  function Select<T(==,!new)>(s: seq<T>, keep: T -> bool): (r: seq<T>)
    ensures forall x :: x in r <==> x in s && keep(x)
    ensures |r| <= |s|
  {
    if s == [] then []
    else (if keep(s[0]) then [s[0]] else []) + Select(s[1..], keep)
  }

  /** Filtering keeps the order of what it keeps: a pairwise property survives. */
  lemma {:induction false} SelectPairwise<T(!new)>(s: seq<T>, keep: T -> bool, rel: (T, T) -> bool)
    requires Pairwise(s, rel)
    ensures Pairwise(Select(s, keep), rel)
  {
    if s != [] {
      var tail := Select(s[1..], keep);
      assert Pairwise(s[1..], rel) by {
        forall i, j | 0 <= i < j < |s[1..]| ensures rel(s[1..][i], s[1..][j]) {
          assert s[1..][i] == s[i + 1] && s[1..][j] == s[j + 1];
        }
      }
      SelectPairwise(s[1..], keep, rel);
      if keep(s[0]) {
        var r := [s[0]] + tail;
        forall i, j | 0 <= i < j < |r| ensures rel(r[i], r[j]) {
          if i == 0 {
            assert r[j] == tail[j - 1] && tail[j - 1] in s[1..];
            var k :| 0 <= k < |s[1..]| && s[1..][k] == r[j];
            assert s[k + 1] == r[j];
          } else {
            assert r[i] == tail[i - 1] && r[j] == tail[j - 1];
          }
        }
      }
    }
  }

  /** The rows in the opposite order. */
  function Reverse<T>(s: seq<T>): (r: seq<T>)
    ensures |r| == |s|
    ensures forall i :: 0 <= i < |s| ==> r[i] == s[|s| - 1 - i]
  {
    if s == [] then [] else Reverse(s[1..]) + [s[0]]
  }

  /** `key` strictly grows along the rows (a primary key, a creation time). */
  ghost predicate Ascending<T>(s: seq<T>, key: T -> int)
  {
    forall i, j :: 0 <= i < j < |s| ==> key(s[i]) < key(s[j])
  }

  /** `key` strictly shrinks along the rows. */
  ghost predicate Descending<T>(s: seq<T>, key: T -> int)
  {
    forall i, j :: 0 <= i < j < |s| ==> key(s[i]) > key(s[j])
  }

  /** Filtering a table ordered by `key` leaves it ordered by `key`. */
  lemma SelectAscending<T(!new)>(s: seq<T>, keep: T -> bool, key: T -> int)
    requires Ascending(s, key)
    ensures Ascending(Select(s, keep), key)
  {
    SelectPairwise(s, keep, (a, b) => key(a) < key(b));
  }

  /**
   * The rows satisfying `keep`, newest first: an ORM query with an
   * `ordering` on the creation time in descending order, over a table kept in
   * creation order.
   */
  function NewestFirst<T(==,!new)>(s: seq<T>, keep: T -> bool, created: T -> int): (r: seq<T>)
    ensures forall x :: x in r <==> x in s && keep(x)
    ensures Ascending(s, created) ==> Descending(r, created)
  {
    var kept := Select(s, keep);
    var r := Reverse(kept);
    assert forall x :: x in r <==> x in kept by {
      forall x | x in kept ensures x in r {
        var i :| 0 <= i < |kept| && kept[i] == x;
        assert r[|kept| - 1 - i] == x;
      }
    }
    assert Ascending(s, created) ==> Descending(r, created) by {
      if Ascending(s, created) {
        SelectAscending(s, keep, created);
        forall i, j | 0 <= i < j < |r| ensures created(r[i]) > created(r[j]) {
          assert r[i] == kept[|kept| - 1 - i] && r[j] == kept[|kept| - 1 - j];
        }
      }
    }
    r
  }

  /**
   * The position of the row whose key is `k`, if any (`get_object_or_404`
   * before it decides between the row and a 404).
   */
  function IndexOf<T>(s: seq<T>, key: T -> nat, k: nat): (r: Option<nat>)
    ensures r.Some? ==> r.value < |s| && key(s[r.value]) == k
    ensures r.None? <==> forall i :: 0 <= i < |s| ==> key(s[i]) != k
  {
    if s == [] then None
    else if key(s[0]) == k then Some(0)
    else match IndexOf(s[1..], key, k)
      case None => None
      case Some(i) => Some(i + 1)
  }
}

=== FILE: trips_models.dfy ===
/**
 * The trip record and its lifecycle: four statuses, the four guards the
 * record answers about itself, the edges the handlers move a trip along, and
 * what follows for whole runs of a trip from its creation.
 */
module TripModels {
  import opened Common
  import opened AccountModels

  type TripId = nat

  /** A price in cents; no arithmetic is ever done on it. */
  type Price = int

  datatype Status = Requested | Accepted | Completed | Cancelled

  const DefaultStatus: Status := Requested

  /** The status as stored (the choice keys). */
  function StatusName(s: Status): string
  {
    match s
    case Requested => "requested"
    case Accepted => "accepted"
    case Completed => "completed"
    case Cancelled => "cancelled"
  }

  lemma StatusNamesDistinct(s: Status, s': Status)
    ensures StatusName(s) == StatusName(s') <==> s == s'
  {
  }

  /**
   * A trip. `createdAt` is the creation timestamp, used only to order
   * listings; `driver` refers to a driver profile.
   */
  datatype Trip = Trip(
    id: TripId,
    rider: UserId,
    driver: Option<ProfileId>,
    origin: string,
    destination: string,
    comment: string,
    price: Option<Price>,
    status: Status,
    createdAt: nat)

  predicate CanBeEdited(t: Trip) { t.status == Requested }

  predicate CanBeAccepted(t: Trip) { t.status == Requested }

  predicate CanBeCompleted(t: Trip) { t.status == Accepted }

  predicate CanBeCancelled(t: Trip) { t.status == Requested || t.status == Accepted }

  predicate Terminal(s: Status) { s == Completed || s == Cancelled }

  /**
   * How the guards relate: editing and accepting are allowed together, a trip
   * is never both acceptable and completable, and it can be cancelled exactly
   * when it can still be accepted or completed.
   */
  lemma GuardsAgree(t: Trip)
    ensures CanBeEdited(t) <==> CanBeAccepted(t)
    ensures !(CanBeAccepted(t) && CanBeCompleted(t))
    ensures CanBeCancelled(t) <==> CanBeAccepted(t) || CanBeCompleted(t)
    ensures CanBeCancelled(t) <==> !Terminal(t.status)
  {
  }

  /** Completed and cancelled trips allow nothing any more. */
  lemma TerminalClosed(t: Trip)
    requires Terminal(t.status)
    ensures !CanBeEdited(t) && !CanBeAccepted(t) && !CanBeCompleted(t) && !CanBeCancelled(t)
  {
  }

  /** A trip as the create form leaves it: requested, with no driver and no price. */
  function NewTrip(id: TripId, rider: UserId, origin: string, destination: string, comment: string, createdAt: nat): (t: Trip)
    ensures t.status == DefaultStatus && t.driver == None && t.price == None
    ensures t.id == id && t.rider == rider && t.createdAt == createdAt
    ensures t.origin == origin && t.destination == destination && t.comment == comment
    ensures CanBeEdited(t) && CanBeAccepted(t) && CanBeCancelled(t) && !CanBeCompleted(t)
  {
    Trip(id, rider, None, origin, destination, comment, None, DefaultStatus, createdAt)
  }

  /** The transitions the handlers perform: accept, complete, and cancel from either open state. */
  predicate Edge(from: Status, to: Status)
  {
    || (from == Requested && to == Accepted)
    || (from == Accepted && to == Completed)
    || (from == Requested && to == Cancelled)
    || (from == Accepted && to == Cancelled)
  }

  /** One operation either leaves the status alone or moves it along an edge. */
  predicate MayMove(from: Status, to: Status)
  {
    from == to || Edge(from, to)
  }

  /** Each edge leaves a state whose guard allows it. */
  lemma EdgesAreGuarded(t: Trip, to: Status)
    requires Edge(t.status, to)
    ensures to == Accepted ==> CanBeAccepted(t)
    ensures to == Completed ==> CanBeCompleted(t)
    ensures to == Cancelled ==> CanBeCancelled(t)
    ensures !Terminal(t.status) && to != Requested
  {
  }

  /**
   * The driver assignment fits the status: nobody drives a requested trip,
   * and an accepted or completed trip has a driver. (A cancelled trip keeps
   * whatever it had.)
   */
  ghost predicate Consistent(t: Trip)
  {
    && (t.status == Requested ==> t.driver.None?)
    && (t.status == Accepted || t.status == Completed ==> t.driver.Some?)
  }

  /** The statuses one trip goes through, from its creation on, one operation at a time. */
  ghost predicate IsRun(path: seq<Status>)
  {
    && |path| > 0
    && path[0] == DefaultStatus
    && forall i :: 0 < i < |path| ==> MayMove(path[i - 1], path[i])
  }

  /** No status is skipped: before a trip is completed it has been accepted. */
  lemma {:induction false} CompletedOnlyViaAccepted(path: seq<Status>, k: nat)
    requires IsRun(path) && k < |path| && path[k] == Completed
    ensures exists j :: 0 <= j < k && path[j] == Accepted
  {
    assert k > 0;
    if path[k - 1] == Completed {
      CompletedOnlyViaAccepted(path, k - 1);
      var j :| 0 <= j < k - 1 && path[j] == Accepted;
      assert 0 <= j < k && path[j] == Accepted;
    } else {
      assert path[k - 1] == Accepted;
    }
  }

  /** Once completed or cancelled, a trip stays as it is. */
  lemma {:induction false} TerminalIsFinal(path: seq<Status>, i: nat, j: nat)
    requires IsRun(path) && i <= j < |path| && Terminal(path[i])
    ensures path[j] == path[i]
  {
    if i < j {
      TerminalIsFinal(path, i, j - 1);
      assert MayMove(path[j - 1], path[j]);
    }
  }
}

=== FILE: trips_views.dfy ===
/**
 * The trip handlers: creating, editing and deleting a trip as its rider,
 * accepting, completing and cancelling it, and the two listings.
 *
 * The trip table is a `TripTable` object whose rows are kept in creation
 * order. A refused operation leaves every row as it was and reports why.
 * Otherwise creating appends one row, deleting removes one, deleting a user
 * removes all the trips they ride, and the other handlers load one row by
 * primary key, check who is asking and what the trip's status allows, and
 * rewrite that row. Every handler keeps the table's invariant —
 * the driver assignment fits the status, no price is ever set — and moves a
 * row only along a lifecycle edge, never replacing an assigned driver.
 */
module TripViews {
  import opened Common
  import opened AccountModels
  import opened TripModels

  /** Why a handler refused; a refusal changes nothing. */
  datatype TripError =
    | NotDriver       // only drivers may accept trips
    | NotFound        // no trip has that primary key (a 404)
    | Forbidden       // the actor has no right to this trip in its current state
    | NotAcceptable   // the trip is no longer requested
    | NotCompletable  // the trip is not accepted
    | NotCancellable  // the trip is already completed or cancelled
    | InvalidForm     // the submitted origin/destination/comment do not validate

  /** The trip form's fields, shared by creation and editing. */
  datatype TripFields = TripFields(origin: string, destination: string, comment: string)

  const MaxPlaceLength: nat := 255

  /**
   * Origin and destination are required, at most 255 characters; the comment
   * may be blank. Values arrive already stripped of surrounding white space
   * and free of NUL characters.
   */
  predicate FieldsValid(f: TripFields)
  {
    0 < |f.origin| <= MaxPlaceLength && 0 < |f.destination| <= MaxPlaceLength
  }

  function TripKey(t: Trip): int { t.id }

  function TripCreatedAt(t: Trip): int { t.createdAt }

  /** The row holding trip `id`, if there is one. */
  function Find(rows: seq<Trip>, id: TripId): (r: Option<nat>)
    ensures r.Some? ==> r.value < |rows| && rows[r.value].id == id
    ensures r.None? <==> forall i :: 0 <= i < |rows| ==> rows[i].id != id
  {
    IndexOf(rows, (t: Trip) => t.id, id)
  }

  /** The actor is a driver and is the one assigned to the trip. */
  predicate IsAssignedDriver(actor: Actor, t: Trip)
  {
    actor.Driver? && t.driver == Some(actor.profile)
  }

  /** Who may edit or delete a trip: its rider, and only while it is requested. */
  predicate MayEdit(actor: Actor, t: Trip)
  {
    t.rider == actor.user && CanBeEdited(t)
  }

  /** Who may cancel a trip (before its status is looked at): the rider or the assigned driver. */
  predicate MayCancel(actor: Actor, t: Trip)
  {
    t.rider == actor.user || IsAssignedDriver(actor, t)
  }

  /** Which trips an actor's own list shows: a driver's are those they drive, anyone else's those they ride. */
  predicate ListedFor(actor: Actor, t: Trip)
  {
    match actor
    case Driver(_, profile) => t.driver == Some(profile)
    case Rider(user) => t.rider == user
  }

  /** The actor's own trips, newest first. */
  function TripList(rows: seq<Trip>, actor: Actor): (r: seq<Trip>)
    ensures forall t :: t in r <==> t in rows && ListedFor(actor, t)
    ensures Ascending(rows, TripCreatedAt) ==> Descending(r, TripCreatedAt)
    ensures actor.Driver? ==> forall t :: t in r && Consistent(t) ==> t.status != Requested
  {
    NewestFirst(rows, (t: Trip) => ListedFor(actor, t), TripCreatedAt)
  }

  /** The trips still waiting for a driver, newest first (shown to anyone logged in). */
  function AvailableTrips(rows: seq<Trip>): (r: seq<Trip>)
    ensures forall t :: t in r <==> t in rows && t.status == Requested
    ensures Ascending(rows, TripCreatedAt) ==> Descending(r, TripCreatedAt)
    ensures forall t :: t in r ==> CanBeAccepted(t) && (Consistent(t) ==> t.driver == None)
  {
    NewestFirst(rows, (t: Trip) => t.status == Requested, TripCreatedAt)
  }

  /**
   * The table invariant: rows in creation order with increasing keys below
   * the next key and times before the clock, each row's driver fitting its
   * status, and no price anywhere (no handler ever sets one).
   */
  ghost predicate RowsValid(rows: seq<Trip>, nextId: nat, clock: nat)
  {
    && Ascending(rows, TripKey)
    && Ascending(rows, TripCreatedAt)
    && forall i :: 0 <= i < |rows| ==>
         rows[i].id < nextId && rows[i].createdAt < clock && Consistent(rows[i]) && rows[i].price == None
  }

  /**
   * `u` is an allowed next version of `t`, as one handler may leave it: the
   * same key, rider and creation time, the status moved along an edge at
   * most, and an assigned driver never replaced.
   */
  predicate MayBecome(t: Trip, u: Trip)
  {
    && u.id == t.id && u.rider == t.rider && u.createdAt == t.createdAt
    && MayMove(t.status, u.status)
    && (t.driver.Some? ==> u.driver == t.driver)
  }

  /** Every trip present both before and after an operation is afterwards an allowed next version of itself. */
  ghost predicate Evolves(before: seq<Trip>, after: seq<Trip>)
  {
    forall i, j :: 0 <= i < |before| && 0 <= j < |after| && before[i].id == after[j].id ==>
      MayBecome(before[i], after[j])
  }

  /** The statuses of successive versions of one trip. */
  function Statuses(h: seq<Trip>): (p: seq<Status>)
    ensures |p| == |h| && forall i :: 0 <= i < |h| ==> p[i] == h[i].status
  {
    seq(|h|, i requires 0 <= i < |h| => h[i].status)
  }

  /** A driver, once assigned, stays on the trip through every later version. */
  lemma {:induction false} DriverKept(h: seq<Trip>, i: nat, j: nat)
    requires forall k :: 0 < k < |h| ==> MayBecome(h[k - 1], h[k])
    requires i <= j < |h| && h[i].driver.Some?
    ensures h[j].driver == h[i].driver
  {
    if i < j {
      DriverKept(h, i, j - 1);
      assert MayBecome(h[j - 1], h[j]);
    }
  }

  /**
   * The versions one trip goes through, from creation on, each obtained from
   * the one before by one handler: the statuses form a lifecycle run, so the
   * trip is accepted before it is completed and stays put once completed or
   * cancelled; and its driver is never replaced.
   */
  lemma TripHistory(h: seq<Trip>)
    requires |h| > 0 && h[0].status == DefaultStatus
    requires forall k :: 0 < k < |h| ==> MayBecome(h[k - 1], h[k])
    ensures IsRun(Statuses(h))
    ensures forall k :: 0 <= k < |h| && h[k].status == Completed ==>
      exists j :: 0 <= j < k && h[j].status == Accepted
    ensures forall i, j :: 0 <= i <= j < |h| && Terminal(h[i].status) ==> h[j].status == h[i].status
    ensures forall i, j :: 0 <= i <= j < |h| && h[i].driver.Some? ==> h[j].driver == h[i].driver
  {
    var p := Statuses(h);
    assert IsRun(p) by {
      forall k | 0 < k < |p| ensures MayMove(p[k - 1], p[k]) {
        assert MayBecome(h[k - 1], h[k]);
      }
    }
    forall k | 0 <= k < |h| && h[k].status == Completed
      ensures exists j :: 0 <= j < k && h[j].status == Accepted
    {
      CompletedOnlyViaAccepted(p, k);
      var j :| 0 <= j < k && p[j] == Accepted;
      assert h[j].status == Accepted;
    }
    forall i, j | 0 <= i <= j < |h| && Terminal(h[i].status) ensures h[j].status == h[i].status {
      TerminalIsFinal(p, i, j);
    }
    forall i, j | 0 <= i <= j < |h| && h[i].driver.Some? ensures h[j].driver == h[i].driver {
      DriverKept(h, i, j);
    }
  }

  /** Increasing keys are keys: no two rows share one. */
  lemma KeysDistinct(rows: seq<Trip>)
    requires Ascending(rows, TripKey)
    ensures forall i, j :: 0 <= i < |rows| && 0 <= j < |rows| && i != j ==> rows[i].id != rows[j].id
  {
    forall i, j | 0 <= i < |rows| && 0 <= j < |rows| && i != j
      ensures rows[i].id != rows[j].id
    {
      if i < j {
        assert TripKey(rows[i]) < TripKey(rows[j]);
      } else {
        assert TripKey(rows[j]) < TripKey(rows[i]);
      }
    }
  }

  lemma EvolvesReflexive(rows: seq<Trip>)
    requires Ascending(rows, TripKey)
    ensures Evolves(rows, rows)
  {
    KeysDistinct(rows);
  }

  /** Rewriting one row as `MayBecome` allows keeps the invariant. */
  lemma ReplaceKeeps(rows: seq<Trip>, k: nat, t: Trip, nextId: nat, clock: nat)
    requires RowsValid(rows, nextId, clock) && k < |rows|
    requires MayBecome(rows[k], t) && Consistent(t) && t.price == None
    ensures RowsValid(rows[k := t], nextId, clock)
    ensures Evolves(rows, rows[k := t])
  {
    var after := rows[k := t];
    assert Ascending(after, TripKey) by {
      forall i, j | 0 <= i < j < |after| ensures TripKey(after[i]) < TripKey(after[j]) {
        assert TripKey(rows[i]) < TripKey(rows[j]);
      }
    }
    assert Ascending(after, TripCreatedAt) by {
      forall i, j | 0 <= i < j < |after| ensures TripCreatedAt(after[i]) < TripCreatedAt(after[j]) {
        assert TripCreatedAt(rows[i]) < TripCreatedAt(rows[j]);
      }
    }
    KeysDistinct(rows);
    forall i, j | 0 <= i < |rows| && 0 <= j < |after| && rows[i].id == after[j].id
      ensures MayBecome(rows[i], after[j])
    {
      assert rows[j].id == rows[i].id;
    }
  }

  /** Deleting one row keeps the invariant. */
  lemma RemoveKeeps(rows: seq<Trip>, k: nat, nextId: nat, clock: nat)
    requires RowsValid(rows, nextId, clock) && k < |rows|
    ensures RowsValid(rows[..k] + rows[k + 1..], nextId, clock)
    ensures Evolves(rows, rows[..k] + rows[k + 1..])
  {
    var after := rows[..k] + rows[k + 1..];
    assert forall j :: 0 <= j < |after| ==> after[j] == rows[if j < k then j else j + 1];
    assert Ascending(after, TripKey) by {
      forall i, j | 0 <= i < j < |after| ensures TripKey(after[i]) < TripKey(after[j]) {
        assert TripKey(rows[if i < k then i else i + 1]) < TripKey(rows[if j < k then j else j + 1]);
      }
    }
    assert Ascending(after, TripCreatedAt) by {
      forall i, j | 0 <= i < j < |after| ensures TripCreatedAt(after[i]) < TripCreatedAt(after[j]) {
        assert TripCreatedAt(rows[if i < k then i else i + 1]) < TripCreatedAt(rows[if j < k then j else j + 1]);
      }
    }
    KeysDistinct(rows);
    forall i, j | 0 <= i < |rows| && 0 <= j < |after| && rows[i].id == after[j].id
      ensures MayBecome(rows[i], after[j])
    {
      var m := if j < k then j else j + 1;
      assert rows[m].id == rows[i].id;
    }
  }

  /** Appending a row with the next key and the current time keeps the invariant. */
  lemma AppendKeeps(rows: seq<Trip>, t: Trip, nextId: nat, clock: nat)
    requires RowsValid(rows, nextId, clock)
    requires t.id == nextId && t.createdAt == clock && Consistent(t) && t.price == None
    ensures RowsValid(rows + [t], nextId + 1, clock + 1)
    ensures Evolves(rows, rows + [t])
  {
    var after := rows + [t];
    assert forall i :: 0 <= i < |rows| ==> after[i] == rows[i];
    EvolvesReflexive(rows);
  }

  /** Filtering rows out (a cascade) keeps the invariant; the trips that remain are untouched. */
  lemma SelectKeeps(rows: seq<Trip>, keep: Trip -> bool, nextId: nat, clock: nat)
    requires RowsValid(rows, nextId, clock)
    ensures RowsValid(Select(rows, keep), nextId, clock)
    ensures Evolves(rows, Select(rows, keep))
  {
    SelectAscending(rows, keep, TripKey);
    SelectAscending(rows, keep, TripCreatedAt);
    var r := Select(rows, keep);
    forall j | 0 <= j < |r| ensures r[j] in rows {
    }
    KeysDistinct(rows);
    forall i, j | 0 <= i < |rows| && 0 <= j < |r| && rows[i].id == r[j].id
      ensures MayBecome(rows[i], r[j])
    {
      var m :| 0 <= m < |rows| && rows[m] == r[j];
      assert m == i;
    }
  }

  class TripTable {
    /** The trips, in creation order. */
    var rows: seq<Trip>
    /** The next primary key. */
    var nextId: TripId
    /** The creation time the next trip will get. */
    var clock: nat

    ghost predicate Valid()
      reads this
    {
      RowsValid(rows, nextId, clock)
    }

    constructor ()
      ensures Valid() && rows == []
    {
      rows := [];
      nextId := 0;
      clock := 0;
    }

    /**
     * A trip created through the form: the form's fields, the caller as
     * rider, and the model's defaults for everything else (so requested, no
     * driver, no price). Any logged-in user may create one, drivers included.
     */
    method Create(actor: Actor, fields: TripFields) returns (r: Result<Trip, TripError>)
      requires Valid()
      modifies this
      ensures Valid() && Evolves(old(rows), rows)
      ensures r.Err? <==> !FieldsValid(fields)
      ensures r.Err? ==> r.error == InvalidForm && rows == old(rows) && nextId == old(nextId) && clock == old(clock)
      ensures r.Ok? ==>
        && r.value == NewTrip(old(nextId), actor.user, fields.origin, fields.destination, fields.comment, old(clock))
        && rows == old(rows) + [r.value]
        && nextId == old(nextId) + 1 && clock == old(clock) + 1
    {
      if !FieldsValid(fields) {
        EvolvesReflexive(rows);
        return Err(InvalidForm);
      }
      var t := NewTrip(nextId, actor.user, fields.origin, fields.destination, fields.comment, clock);
      AppendKeeps(rows, t, nextId, clock);
      rows := rows + [t];
      nextId := nextId + 1;
      clock := clock + 1;
      r := Ok(t);
    }

    /**
     * Accepting: refused for anyone but a driver before the trip is even
     * looked up; then refused unless the trip is requested; otherwise the
     * driver's profile becomes the trip's driver and the trip is accepted.
     * Nothing stops a driver accepting a trip they ride themselves.
     */
    method Accept(actor: Actor, id: TripId) returns (r: Result<Trip, TripError>)
      requires Valid()
      modifies this
      ensures Valid() && Evolves(old(rows), rows)
      ensures nextId == old(nextId) && clock == old(clock)
      ensures !actor.Driver? ==> r == Err(NotDriver)
      ensures actor.Driver? && Find(old(rows), id).None? ==> r == Err(NotFound)
      ensures r.Ok? <==> actor.Driver? && Find(old(rows), id).Some? && CanBeAccepted(old(rows)[Find(old(rows), id).value])
      ensures r.Err? ==> rows == old(rows)
      ensures r.Err? && actor.Driver? && Find(old(rows), id).Some? ==> r.error == NotAcceptable
      ensures r.Ok? ==>
        var k := Find(old(rows), id).value;
        && r.value == old(rows)[k].(driver := Some(actor.profile), status := Accepted)
        && rows == old(rows)[k := r.value]
    {
      EvolvesReflexive(rows);
      if !actor.Driver? {
        return Err(NotDriver);
      }
      var k := Find(rows, id);
      if k.None? {
        return Err(NotFound);
      }
      var t := rows[k.value];
      if !CanBeAccepted(t) {
        return Err(NotAcceptable);
      }
      t := t.(driver := Some(actor.profile), status := Accepted);
      ReplaceKeeps(rows, k.value, t, nextId, clock);
      rows := rows[k.value := t];
      r := Ok(t);
    }

    /**
     * Completing: the trip is looked up first; refused unless the actor is
     * its assigned driver, and only then unless it is accepted. On success
     * only the status changes — in particular no price is set.
     */
    method Complete(actor: Actor, id: TripId) returns (r: Result<Trip, TripError>)
      requires Valid()
      modifies this
      ensures Valid() && Evolves(old(rows), rows)
      ensures nextId == old(nextId) && clock == old(clock)
      ensures Find(old(rows), id).None? ==> r == Err(NotFound)
      ensures Find(old(rows), id).Some? && !IsAssignedDriver(actor, old(rows)[Find(old(rows), id).value]) ==> r == Err(Forbidden)
      ensures Find(old(rows), id).Some? && IsAssignedDriver(actor, old(rows)[Find(old(rows), id).value]) && !CanBeCompleted(old(rows)[Find(old(rows), id).value]) ==>
        r == Err(NotCompletable)
      ensures r.Ok? <==>
        && Find(old(rows), id).Some?
        && IsAssignedDriver(actor, old(rows)[Find(old(rows), id).value])
        && CanBeCompleted(old(rows)[Find(old(rows), id).value])
      ensures r.Err? ==> rows == old(rows) && r.error in {NotFound, Forbidden, NotCompletable}
      ensures r.Ok? ==>
        var k := Find(old(rows), id).value;
        && r.value == old(rows)[k].(status := Completed)
        && rows == old(rows)[k := r.value]
    {
      EvolvesReflexive(rows);
      var k := Find(rows, id);
      if k.None? {
        return Err(NotFound);
      }
      var t := rows[k.value];
      if !IsAssignedDriver(actor, t) {
        return Err(Forbidden);
      }
      if !CanBeCompleted(t) {
        return Err(NotCompletable);
      }
      t := t.(status := Completed);
      ReplaceKeeps(rows, k.value, t, nextId, clock);
      rows := rows[k.value := t];
      r := Ok(t);
    }

    /**
     * Cancelling: the trip is looked up first; refused unless the actor is
     * its rider or its assigned driver, and only then unless it is requested
     * or accepted. On success only the status changes: a driver, if any,
     * stays on the cancelled trip.
     */
    method Cancel(actor: Actor, id: TripId) returns (r: Result<Trip, TripError>)
      requires Valid()
      modifies this
      ensures Valid() && Evolves(old(rows), rows)
      ensures nextId == old(nextId) && clock == old(clock)
      ensures Find(old(rows), id).None? ==> r == Err(NotFound)
      ensures Find(old(rows), id).Some? && !MayCancel(actor, old(rows)[Find(old(rows), id).value]) ==> r == Err(Forbidden)
      ensures Find(old(rows), id).Some? && MayCancel(actor, old(rows)[Find(old(rows), id).value]) && !CanBeCancelled(old(rows)[Find(old(rows), id).value]) ==>
        r == Err(NotCancellable)
      ensures r.Ok? <==>
        && Find(old(rows), id).Some?
        && MayCancel(actor, old(rows)[Find(old(rows), id).value])
        && CanBeCancelled(old(rows)[Find(old(rows), id).value])
      ensures r.Err? ==> rows == old(rows) && r.error in {NotFound, Forbidden, NotCancellable}
      ensures r.Ok? ==>
        var k := Find(old(rows), id).value;
        && r.value == old(rows)[k].(status := Cancelled)
        && rows == old(rows)[k := r.value]
    {
      EvolvesReflexive(rows);
      var k := Find(rows, id);
      if k.None? {
        return Err(NotFound);
      }
      var t := rows[k.value];
      var isRider := t.rider == actor.user;
      var isDriver := actor.Driver? && t.driver == Some(actor.profile);
      if !(isRider || isDriver) {
        return Err(Forbidden);
      }
      if !CanBeCancelled(t) {
        return Err(NotCancellable);
      }
      t := t.(status := Cancelled);
      ReplaceKeeps(rows, k.value, t, nextId, clock);
      rows := rows[k.value := t];
      r := Ok(t);
    }

    /**
     * Editing: the trip is looked up; the rider may edit it while it is
     * requested, anyone else or any other status is one refusal; then the
     * form must validate. Only origin, destination and comment change.
     */
    method Update(actor: Actor, id: TripId, fields: TripFields) returns (r: Result<Trip, TripError>)
      requires Valid()
      modifies this
      ensures Valid() && Evolves(old(rows), rows)
      ensures nextId == old(nextId) && clock == old(clock)
      ensures Find(old(rows), id).None? ==> r == Err(NotFound)
      ensures Find(old(rows), id).Some? && !MayEdit(actor, old(rows)[Find(old(rows), id).value]) ==> r == Err(Forbidden)
      ensures r.Ok? <==>
        Find(old(rows), id).Some? && MayEdit(actor, old(rows)[Find(old(rows), id).value]) && FieldsValid(fields)
      ensures Find(old(rows), id).Some? && MayEdit(actor, old(rows)[Find(old(rows), id).value]) && !FieldsValid(fields) ==> r == Err(InvalidForm)
      ensures r.Err? ==> rows == old(rows) && r.error in {NotFound, Forbidden, InvalidForm}
      ensures r.Ok? ==>
        var k := Find(old(rows), id).value;
        && r.value == old(rows)[k].(origin := fields.origin, destination := fields.destination, comment := fields.comment)
        && rows == old(rows)[k := r.value]
    {
      EvolvesReflexive(rows);
      var k := Find(rows, id);
      if k.None? {
        return Err(NotFound);
      }
      var t := rows[k.value];
      if !MayEdit(actor, t) {
        return Err(Forbidden);
      }
      if !FieldsValid(fields) {
        return Err(InvalidForm);
      }
      t := t.(origin := fields.origin, destination := fields.destination, comment := fields.comment);
      ReplaceKeeps(rows, k.value, t, nextId, clock);
      rows := rows[k.value := t];
      r := Ok(t);
    }

    /** The cascade when a user is deleted: every trip they ride goes with it. */
    method DeleteRiddenBy(user: UserId)
      requires Valid()
      modifies this
      ensures Valid() && Evolves(old(rows), rows)
      ensures nextId == old(nextId) && clock == old(clock)
      ensures forall t :: t in rows <==> t in old(rows) && t.rider != user
      ensures rows == Select(old(rows), (t: Trip) => t.rider != user)
    {
      SelectKeeps(rows, (t: Trip) => t.rider != user, nextId, clock);
      rows := Select(rows, (t: Trip) => t.rider != user);
    }

    /** Deleting: the same test as editing; on success the row is gone and the others stay in order. */
    method Delete(actor: Actor, id: TripId) returns (r: Result<Trip, TripError>)
      requires Valid()
      modifies this
      ensures Valid() && Evolves(old(rows), rows)
      ensures nextId == old(nextId) && clock == old(clock)
      ensures Find(old(rows), id).None? ==> r == Err(NotFound)
      ensures Find(old(rows), id).Some? && !MayEdit(actor, old(rows)[Find(old(rows), id).value]) ==> r == Err(Forbidden)
      ensures r.Ok? <==> Find(old(rows), id).Some? && MayEdit(actor, old(rows)[Find(old(rows), id).value])
      ensures r.Err? ==> rows == old(rows) && r.error in {NotFound, Forbidden}
      ensures r.Ok? ==>
        var k := Find(old(rows), id).value;
        && r.value == old(rows)[k]
        && rows == old(rows)[..k] + old(rows)[k + 1..]
        && forall j :: 0 <= j < |rows| ==> rows[j].id != id
    {
      EvolvesReflexive(rows);
      var k := Find(rows, id);
      if k.None? {
        return Err(NotFound);
      }
      var t := rows[k.value];
      if !MayEdit(actor, t) {
        return Err(Forbidden);
      }
      RemoveKeeps(rows, k.value, nextId, clock);
      rows := rows[..k.value] + rows[k.value + 1..];
      r := Ok(t);
    }
  }
}

=== FILE: vehicles_models.dfy ===
/**
 * The vehicle record a driver registers: the fields, their bounds and
 * defaults, and its display string.
 */
module VehicleModels {
  import opened Common
  import opened AccountModels

  type VehicleId = nat

  const CarNumberMaxLength: nat := 20
  const CarModelMaxLength: nat := 100
  const ColorMaxLength: nat := 50

  const DefaultSeats: nat := 4
  const DefaultIsActive: bool := true

  /**
   * A vehicle, owned by one driver profile. The car number is unique across
   * all vehicles (the table invariant in VehicleViews says so); seats and
   * year are non-negative; `createdAt` orders listings.
   */
  datatype Vehicle = Vehicle(
    id: VehicleId,
    owner: ProfileId,
    carNumber: string,
    carModel: string,
    seats: nat,
    year: Option<nat>,
    color: string,
    isActive: bool,
    createdAt: nat)

  /** The vehicle form's fields (the photo is not modelled). */
  datatype VehicleFields = VehicleFields(
    carNumber: string,
    carModel: string,
    seats: nat,
    year: Option<nat>,
    color: string,
    isActive: bool)

  /** A new form's initial values: the model's defaults, and blank for the two fields that have none. */
  function InitialFields(): (f: VehicleFields)
    ensures f.seats == DefaultSeats && f.year == None && f.color == "" && f.isActive == DefaultIsActive
    ensures f.carNumber == "" && f.carModel == ""
  {
    VehicleFields("", "", DefaultSeats, None, "", DefaultIsActive)
  }

  /**
   * The per-field checks the form derives from the model: car number and
   * car model are required and bounded, the colour may be blank but is
   * bounded, seats and year are non-negative by their type. Text values
   * arrive already stripped and free of NUL characters, and a seat count is
   * always submitted.
   */
  predicate FieldsValid(f: VehicleFields)
  {
    && 0 < |f.carNumber| <= CarNumberMaxLength
    && 0 < |f.carModel| <= CarModelMaxLength
    && |f.color| <= ColorMaxLength
  }

  /** A vehicle's display string: the car model, then the car number in parentheses. */
  function VehicleLabel(v: Vehicle): (s: string)
    ensures |s| == |v.carModel| + |v.carNumber| + 3
    ensures s[..|v.carModel|] == v.carModel
    ensures s[|v.carModel| + 2..|s| - 1] == v.carNumber
    ensures s[|v.carModel|..|v.carModel| + 2] == " (" && s[|s| - 1] == ')'
  {
    v.carModel + " (" + v.carNumber + ")"
  }

  /** The vehicle with the submitted fields, keeping its key, owner and creation time. */
  function WithFields(v: Vehicle, f: VehicleFields): (w: Vehicle)
    ensures w.id == v.id && w.owner == v.owner && w.createdAt == v.createdAt
    ensures w.carNumber == f.carNumber && w.carModel == f.carModel && w.seats == f.seats
    ensures w.year == f.year && w.color == f.color && w.isActive == f.isActive
  {
    v.(carNumber := f.carNumber, carModel := f.carModel, seats := f.seats,
       year := f.year, color := f.color, isActive := f.isActive)
  }
}

=== FILE: vehicles_views.dfy ===
/**
 * The vehicle registry as the driver screens see it: a driver lists, adds,
 * edits and removes their own vehicles, and nobody else's.
 *
 * The vehicle table is a `VehicleTable` object whose rows are kept in
 * creation order. Its invariant makes the car number a key of the whole
 * table, whoever owns the vehicles. Each handler checks the actor first
 * ("is a driver", or "is a driver and owns this vehicle"), then the form, and
 * either rewrites the table or leaves it exactly as it was.
 */
module VehicleViews {
  import opened Common
  import opened AccountModels
  import opened VehicleModels

  /** Why a handler refused; a refusal changes nothing. */
  datatype VehicleError =
    | Forbidden           // not a driver, or not this vehicle's owner (a 403)
    | NotFound            // no vehicle has that primary key (a 404)
    | InvalidForm         // a field fails its own checks
    | DuplicateCarNumber  // another vehicle already has this car number

  function VehicleKey(v: Vehicle): int { v.id }

  function VehicleCreatedAt(v: Vehicle): int { v.createdAt }

  predicate DistinctCarNumbers(a: Vehicle, b: Vehicle) { a.carNumber != b.carNumber }

  /** Who may add a vehicle: any driver. */
  predicate MayCreate(actor: Actor) { actor.Driver? }

  /** Who may edit or delete a vehicle: a driver who owns it. */
  predicate MayManage(actor: Actor, v: Vehicle)
  {
    actor.Driver? && v.owner == actor.profile
  }

  /** The row holding vehicle `id`, if there is one. */
  function FindVehicle(rows: seq<Vehicle>, id: VehicleId): (r: Option<nat>)
    ensures r.Some? ==> r.value < |rows| && rows[r.value].id == id
    ensures r.None? <==> forall i :: 0 <= i < |rows| ==> rows[i].id != id
  {
    IndexOf(rows, (v: Vehicle) => v.id, id)
  }

  /** Some vehicle other than `except` already carries `carNumber`. */
  predicate CarNumberTaken(rows: seq<Vehicle>, carNumber: string, except: Option<VehicleId>)
  {
    exists i :: 0 <= i < |rows| && rows[i].carNumber == carNumber && Some(rows[i].id) != except
  }

  /** A driver's own vehicles, newest first; anyone else sees none. */
  function VehicleList(rows: seq<Vehicle>, actor: Actor): (r: seq<Vehicle>)
    ensures forall v :: v in r <==> v in rows && MayManage(actor, v)
    ensures !actor.Driver? ==> r == []
    ensures Ascending(rows, VehicleCreatedAt) ==> Descending(r, VehicleCreatedAt)
  {
    match actor
    case Driver(_, profile) => NewestFirst(rows, (v: Vehicle) => v.owner == profile, VehicleCreatedAt)
    case Rider(_) => []
  }

  /**
   * The table invariant: creation order with increasing keys below the next
   * key and times before the clock, and no car number twice.
   */
  ghost predicate RowsValid(rows: seq<Vehicle>, nextId: nat, clock: nat)
  {
    && Ascending(rows, VehicleKey)
    && Ascending(rows, VehicleCreatedAt)
    && Pairwise(rows, DistinctCarNumbers)
    && forall i :: 0 <= i < |rows| ==> rows[i].id < nextId && rows[i].createdAt < clock
  }

  /** Car numbers are unique in a valid table, in both directions of the pair. */
  lemma CarNumbersUnique(rows: seq<Vehicle>, nextId: nat, clock: nat)
    requires RowsValid(rows, nextId, clock)
    ensures forall i, j :: 0 <= i < |rows| && 0 <= j < |rows| && i != j ==> rows[i].carNumber != rows[j].carNumber
  {
    forall i, j | 0 <= i < |rows| && 0 <= j < |rows| && i != j
      ensures rows[i].carNumber != rows[j].carNumber
    {
      if i < j {
        assert DistinctCarNumbers(rows[i], rows[j]);
      } else {
        assert DistinctCarNumbers(rows[j], rows[i]);
      }
    }
  }

  /** A car number in a valid table names exactly one vehicle. */
  lemma CarNumberIdentifies(rows: seq<Vehicle>, nextId: nat, clock: nat, i: nat, j: nat)
    requires RowsValid(rows, nextId, clock) && i < |rows| && j < |rows|
    ensures rows[i].carNumber == rows[j].carNumber <==> i == j
  {
    CarNumbersUnique(rows, nextId, clock);
  }

  /** Appending a vehicle with the next key, the current time and an unused car number keeps the invariant. */
  lemma AppendKeeps(rows: seq<Vehicle>, v: Vehicle, nextId: nat, clock: nat)
    requires RowsValid(rows, nextId, clock)
    requires v.id == nextId && v.createdAt == clock && !CarNumberTaken(rows, v.carNumber, None)
    ensures RowsValid(rows + [v], nextId + 1, clock + 1)
  {
    var after := rows + [v];
    forall i, j | 0 <= i < j < |after| ensures DistinctCarNumbers(after[i], after[j]) {
      if j < |rows| {
        assert DistinctCarNumbers(rows[i], rows[j]);
      } else {
        assert after[i] == rows[i];
      }
    }
  }

  /** Rewriting a row's fields, with a car number no other row has, keeps the invariant. */
  lemma ReplaceKeeps(rows: seq<Vehicle>, k: nat, v: Vehicle, nextId: nat, clock: nat)
    requires RowsValid(rows, nextId, clock) && k < |rows|
    requires v.id == rows[k].id && v.createdAt == rows[k].createdAt
    requires !CarNumberTaken(rows, v.carNumber, Some(v.id))
    ensures RowsValid(rows[k := v], nextId, clock)
  {
    var after := rows[k := v];
    forall i, j | 0 <= i < j < |after|
      ensures VehicleKey(after[i]) < VehicleKey(after[j])
      ensures VehicleCreatedAt(after[i]) < VehicleCreatedAt(after[j])
      ensures DistinctCarNumbers(after[i], after[j])
    {
      assert VehicleKey(rows[i]) < VehicleKey(rows[j]);
      assert VehicleCreatedAt(rows[i]) < VehicleCreatedAt(rows[j]);
      if i != k && j != k {
        assert DistinctCarNumbers(rows[i], rows[j]);
      } else if i == k {
        assert rows[j].id != v.id;
      } else {
        assert rows[i].id != v.id;
      }
    }
  }

  /** Deleting one row keeps the invariant. */
  lemma RemoveKeeps(rows: seq<Vehicle>, k: nat, nextId: nat, clock: nat)
    requires RowsValid(rows, nextId, clock) && k < |rows|
    ensures RowsValid(rows[..k] + rows[k + 1..], nextId, clock)
  {
    var after := rows[..k] + rows[k + 1..];
    forall i, j | 0 <= i < j < |after|
      ensures VehicleKey(after[i]) < VehicleKey(after[j])
      ensures VehicleCreatedAt(after[i]) < VehicleCreatedAt(after[j])
      ensures DistinctCarNumbers(after[i], after[j])
    {
      var i', j' := if i < k then i else i + 1, if j < k then j else j + 1;
      assert after[i] == rows[i'] && after[j] == rows[j'];
      assert VehicleKey(rows[i']) < VehicleKey(rows[j']);
      assert VehicleCreatedAt(rows[i']) < VehicleCreatedAt(rows[j']);
      assert DistinctCarNumbers(rows[i'], rows[j']);
    }
    assert forall j :: 0 <= j < |after| ==> after[j] == rows[if j < k then j else j + 1];
  }

  /** Filtering rows out (a cascade) keeps the invariant. */
  lemma SelectKeeps(rows: seq<Vehicle>, keep: Vehicle -> bool, nextId: nat, clock: nat)
    requires RowsValid(rows, nextId, clock)
    ensures RowsValid(Select(rows, keep), nextId, clock)
  {
    SelectAscending(rows, keep, VehicleKey);
    SelectAscending(rows, keep, VehicleCreatedAt);
    SelectPairwise(rows, keep, DistinctCarNumbers);
    var r := Select(rows, keep);
    forall i | 0 <= i < |r| ensures r[i].id < nextId && r[i].createdAt < clock {
      assert r[i] in rows;
    }
  }

  class VehicleTable {
    /** The vehicles, in creation order. */
    var rows: seq<Vehicle>
    /** The next primary key. */
    var nextId: VehicleId
    /** The creation time the next vehicle will get. */
    var clock: nat

    ghost predicate Valid()
      reads this
    {
      RowsValid(rows, nextId, clock)
    }

    constructor ()
      ensures Valid() && rows == []
    {
      rows := [];
      nextId := 0;
      clock := 0;
    }

    /**
     * Adding a vehicle: drivers only; then the form must validate and its
     * car number must be unused by every vehicle, anyone's. The new vehicle
     * belongs to the acting driver's profile.
     */
    method Create(actor: Actor, fields: VehicleFields) returns (r: Result<Vehicle, VehicleError>)
      requires Valid()
      modifies this
      ensures Valid()
      ensures !MayCreate(actor) ==> r == Err(Forbidden)
      ensures MayCreate(actor) && !FieldsValid(fields) ==> r == Err(InvalidForm)
      ensures MayCreate(actor) && FieldsValid(fields) && CarNumberTaken(old(rows), fields.carNumber, None) ==>
        r == Err(DuplicateCarNumber)
      ensures r.Ok? <==> MayCreate(actor) && FieldsValid(fields) && !CarNumberTaken(old(rows), fields.carNumber, None)
      ensures r.Err? ==> rows == old(rows) && nextId == old(nextId) && clock == old(clock)
      ensures r.Ok? ==>
        && r.value.owner == actor.profile && r.value.id == old(nextId) && r.value.createdAt == old(clock)
        && r.value == WithFields(r.value, fields)
        && rows == old(rows) + [r.value]
        && nextId == old(nextId) + 1 && clock == old(clock) + 1
    {
      if !actor.Driver? {
        return Err(Forbidden);
      }
      if !FieldsValid(fields) {
        return Err(InvalidForm);
      }
      if CarNumberTaken(rows, fields.carNumber, None) {
        return Err(DuplicateCarNumber);
      }
      var v := Vehicle(nextId, actor.profile, fields.carNumber, fields.carModel, fields.seats,
                       fields.year, fields.color, fields.isActive, clock);
      AppendKeeps(rows, v, nextId, clock);
      rows := rows + [v];
      nextId := nextId + 1;
      clock := clock + 1;
      r := Ok(v);
    }

    /**
     * Editing a vehicle: it is looked up; the owner (a driver) may edit it;
     * then the form must validate and its car number must be unused by every
     * other vehicle. Key, owner and creation time stay.
     */
    method Update(actor: Actor, id: VehicleId, fields: VehicleFields) returns (r: Result<Vehicle, VehicleError>)
      requires Valid()
      modifies this
      ensures Valid() && nextId == old(nextId) && clock == old(clock)
      ensures FindVehicle(old(rows), id).None? ==> r == Err(NotFound)
      ensures FindVehicle(old(rows), id).Some? && !MayManage(actor, old(rows)[FindVehicle(old(rows), id).value]) ==>
        r == Err(Forbidden)
      ensures FindVehicle(old(rows), id).Some? && MayManage(actor, old(rows)[FindVehicle(old(rows), id).value]) && !FieldsValid(fields) ==>
        r == Err(InvalidForm)
      ensures
        && FindVehicle(old(rows), id).Some?
        && MayManage(actor, old(rows)[FindVehicle(old(rows), id).value])
        && FieldsValid(fields)
        && CarNumberTaken(old(rows), fields.carNumber, Some(id))
        ==> r == Err(DuplicateCarNumber)
      ensures r.Ok? <==>
        && FindVehicle(old(rows), id).Some?
        && MayManage(actor, old(rows)[FindVehicle(old(rows), id).value])
        && FieldsValid(fields)
        && !CarNumberTaken(old(rows), fields.carNumber, Some(id))
      ensures r.Err? ==> rows == old(rows)
      ensures r.Ok? ==>
        var k := FindVehicle(old(rows), id).value;
        && r.value == WithFields(old(rows)[k], fields)
        && rows == old(rows)[k := r.value]
    {
      var k := FindVehicle(rows, id);
      if k.None? {
        return Err(NotFound);
      }
      var v := rows[k.value];
      if !MayManage(actor, v) {
        return Err(Forbidden);
      }
      if !FieldsValid(fields) {
        return Err(InvalidForm);
      }
      if CarNumberTaken(rows, fields.carNumber, Some(id)) {
        return Err(DuplicateCarNumber);
      }
      v := WithFields(v, fields);
      ReplaceKeeps(rows, k.value, v, nextId, clock);
      rows := rows[k.value := v];
      r := Ok(v);
    }

    /** Deleting a vehicle: the same test as editing; on success the row is gone. */
    method Delete(actor: Actor, id: VehicleId) returns (r: Result<Vehicle, VehicleError>)
      requires Valid()
      modifies this
      ensures Valid() && nextId == old(nextId) && clock == old(clock)
      ensures FindVehicle(old(rows), id).None? ==> r == Err(NotFound)
      ensures FindVehicle(old(rows), id).Some? && !MayManage(actor, old(rows)[FindVehicle(old(rows), id).value]) ==> r == Err(Forbidden)
      ensures r.Ok? <==> FindVehicle(old(rows), id).Some? && MayManage(actor, old(rows)[FindVehicle(old(rows), id).value])
      ensures r.Err? ==> rows == old(rows) && r.error in {NotFound, Forbidden}
      ensures r.Ok? ==>
        var k := FindVehicle(old(rows), id).value;
        && r.value == old(rows)[k]
        && rows == old(rows)[..k] + old(rows)[k + 1..]
    {
      var k := FindVehicle(rows, id);
      if k.None? {
        return Err(NotFound);
      }
      var v := rows[k.value];
      if !MayManage(actor, v) {
        return Err(Forbidden);
      }
      RemoveKeeps(rows, k.value, nextId, clock);
      rows := rows[..k.value] + rows[k.value + 1..];
      r := Ok(v);
    }

    /** The cascade when a driver profile is deleted: every vehicle it owns goes with it. */
    method DeleteOwnedBy(profile: ProfileId)
      requires Valid()
      modifies this
      ensures Valid() && nextId == old(nextId) && clock == old(clock)
      ensures forall v :: v in rows <==> v in old(rows) && v.owner != profile
      ensures rows == Select(old(rows), (v: Vehicle) => v.owner != profile)
    {
      SelectKeeps(rows, (v: Vehicle) => v.owner != profile, nextId, clock);
      rows := Select(rows, (v: Vehicle) => v.owner != profile);
    }
  }
}
